=== FILE: README.md ===
# Dodge the Sequid: a Dafny model of the frame loop

The game is a single canvas page. The player drags a 40×40 square to dodge
20×20 objects that fall from the top. Touching one ends the round ("Game
Over!"). Lasting the 30-second clock wins the round ("You Win!"). Either way
`resetGame` starts a fresh round. Each frame of `gameLoop` runs `update`
then `updateTimer`. `update` moves, collision-tests and culls the objects,
then maybe spawns a new one. `updateTimer` ticks the clock and raises the
speed multiplier. The pointer and touch handlers grab, move and release the
square.

The model is an immutable `State.Game` record. It holds the objects, the
time left, the speed multiplier, the started flag, the square and the
canvas size. Every handler is a pure function on that record.
Coordinates and time are exact `real`s. The canvas size is a pair of
`nat`s, because `canvas.width` and `canvas.height` are integers. The two
`Math.random()` draws of a frame are parameters: `roll` for the spawn test
and `xFraction` for the spawn position.

The object loop of `update` walks the list from the end and removes
objects with `splice`. It is modelled as the method `Objects.StepObjects`:
a downward index loop over a sequence that removes element `i` in place.
Its loop invariant proves that it returns exactly `Objects.LastHit` (the
highest-index collision) and `Objects.Survivors` (every object moved, then
those below the canvas dropped). `Objects.SurvivorsAreKeptInOrder` and
`Objects.SurvivorsMembers` then prove that the cull is a filter plus a map.
It keeps the original order, and it neither skips nor repeats an object.

`Loop.WellFormed` is the invariant of every state between frames and
events. It says:
- the square is on the canvas;
- the clock is in (0, 30];
- the multiplier equals `1 + 0.3 * (30 - timeLeft)`, because each active frame takes 1/60 off the clock and adds 0.005 to the multiplier;
- a round that has not started has no objects and a full clock;
- every object is 20×20, is horizontally inside the canvas, is not below the bottom edge, and falls at a speed between 2 and twice the current multiplier.

The invariant holds on canvases at least 40 wide and 50 high. `positionPlayer`
puts the square 10 pixels above the bottom edge, so on a canvas lower than
50 pixels the reset position is already off the canvas
(`State.PositionPlayerInPlayfield` proves that this is an if-and-only-if).
So the square stays on the canvas in every state only on canvases of at
least that size. The clock is not clamped at zero before the win:
`timeLeft` can drop just below zero, and the reset that follows in the same
call of `updateTimer` restores 30. The model follows the code in both
respects.
`Loop.Run` runs any sequence of frames and input events from a well-formed
state and proves that the invariant holds at the end.

## Model

| member | source | states |
|---|---|---|
| Geometry.Overlaps | game.js:95-102 | `checkCollision`: for boxes of positive size, the strict test holds exactly when both the horizontal and the vertical extents have a non-empty intersection |
| Geometry.Contains | game.js:188-193 | the grab hit test (the same test as game.js:227-232): for a box of non-negative size, the point lies within half the width and half the height of the box's centre, edges included; every interior point passes |
| Geometry.OverlapsSymmetric | game.js:95-102 | the collision test gives the same answer with its two boxes swapped |
| Geometry.TouchingBoxesDoNotOverlap | game.js:95-102 | boxes that only share an edge do not collide, because every comparison is strict |
| Geometry.OverlapsIffCommonInteriorPoint | game.js:95-102 | for boxes of positive size, colliding is equivalent to sharing a point of both open interiors (both directions) |
| Geometry.Clamp | game.js:207-208 | `Math.max(0, Math.min(hi, v))` is never negative, is at most `hi` when `hi >= 0`, leaves values in range alone, and is 0 when `hi < 0` |
| Geometry.ClampIsNearest | game.js:207-250 | for the clamp of the mouse move (game.js:207-208) and the touch move (game.js:249-250): when the range is non-empty, the clamped value is the point of `[0, hi]` nearest to the requested one |
| State.PositionPlayer | game.js:44-47 | the square is horizontally centred on the canvas, its bottom is 10 pixels above the canvas bottom, and the dragging flag is kept |
| State.PositionPlayerInPlayfield | game.js:44-47 | the reset position lies on the canvas exactly when the canvas is at least 40 wide and 50 high |
| State.Reset | game.js:105-112 | after a reset the object list is empty, the clock is 30, the multiplier is 1, the round is not started, the square is at `(W/2 - 20, H - 50)`, and the dragging flag and canvas are untouched |
| State.ResetForgetsRound | game.js:105-112 | the reset state depends only on the canvas and the dragging flag, not on the round being reset |
| State.ResetIdempotent | game.js:105-112 | resetting a reset state changes nothing |
| State.Initial | game.js:27-48 | the state at page load on canvas `c` (square at the origin, then placed by `positionPlayer`) is already a reset state on that canvas, with no drag in progress |
| Objects.Fall | game.js:137 | a frame moves an object down by its own speed and changes nothing else |
| Objects.Kept | game.js:153-156 | a moved object is dropped exactly when its top edge is below the canvas bottom |
| Objects.Survivors | game.js:136-157 | the cull never makes the list longer |
| Objects.LastHit | game.js:136-151 | the scan reports no hit exactly when no moved object overlaps the square; otherwise it reports an overlapping object with no overlapping object above its index |
| Objects.LastHitAt | game.js:136-151 | the scan's answer is fixed by the highest index whose moved object overlaps the square |
| Objects.MoveInPlace | game.js:137 | moving `objects[i]` in place changes only that slot, to its moved image |
| Objects.CullInPlace | game.js:154-155 | `splice(i, 1)` of an object below the canvas, or keeping one that is not, extends the already-processed suffix by that object's cull |
| Objects.StepObjects | game.js:136-157 | the downward loop with in-place moves and `splice` returns exactly the scan result; without a hit it returns the moved-and-culled list; on a hit it returns the list as it stands when the loop stops |
| Objects.KeptIndices | game.js:153-156 | the surviving indices are strictly increasing, in range, and contain exactly the indices whose moved object is not below the canvas |
| Objects.SurvivorsAreKeptInOrder | game.js:136-157 | the cull's result is, in order, the moved image of each surviving index once: nothing skipped, nothing duplicated |
| Objects.SurvivorsMembers | game.js:136-157 | an object is in the culled list exactly when it is the moved image of some object and its top edge is not below the canvas |
| Objects.SurvivorsAboveBottom | game.js:153-156 | no survivor is below the canvas bottom |
| Objects.NewObject | game.js:84-92 | a spawned object is 20×20 at `y = -20`, falls at twice the multiplier, and its `x` is `xFraction * (W - 20)`, which lies in `[0, W - 20)` for a draw in `[0, 1)` on a canvas wider than 20 |
| Objects.MaybeSpawn | game.js:159-162 | only the object list changes; one new object is appended exactly when the round is started and the draw is below `0.02 * multiplier`; otherwise the state is unchanged |
| Objects.NoSpawnWhenInactive | game.js:159-162 | before the round starts nothing is spawned, whatever the multiplier and draws |
| Timer.UpdateTimer | game.js:166-177 | while active with more than one frame left, the clock drops by exactly 1/60 and the multiplier rises by exactly 0.005; a clock that reaches zero resets; an inactive round with time left is unchanged; the clock is always positive afterwards |
| Timer.MultiplierNonDecreasing | game.js:166-177 | the timer step either resets or does not lower the multiplier and does not raise the clock |
| Timer.TimerKeepsRest | game.js:166-177 | unless it resets, the timer step leaves the objects, started flag, square and canvas alone |
| Input.Grab | game.js:183-199 | a press inside the square (edges included) starts the drag and the round and changes nothing else; a press outside changes nothing |
| Input.Move | game.js:201-210 | a move while not dragging changes nothing; while dragging only the square moves, it stays in `[0, W-40] × [0, H-40]` when the canvas is at least 40 in that dimension, and it is centred on the pointer when that position is in range |
| Input.MoveOnNarrowCanvas | game.js:207-208 | on a canvas narrower than 40 the lower clamp wins, so the square sits at `x = 0`, beyond the upper bound `W - 40` |
| Input.MoveOnShortCanvas | game.js:208-250 | in the mouse move (game.js:208) and the touch move (game.js:250), on a canvas lower than 40 the lower clamp wins, so the square sits at `y = 0`, beyond the upper bound `H - 40` |
| Input.MoveIsNearestPosition | game.js:201-252 | during a drag, a mouse move (game.js:201-210) or touch move (game.js:240-252) places the square, in each coordinate separately, at the on-canvas position nearest to centring it on the pointer, wherever the canvas is at least 40 in that dimension |
| Input.Release | game.js:212-257 | `mouseup`, `mouseleave` and `touchend` (game.js:212-219 and game.js:254-257; `ApplyEvent` sends all three here) clear the dragging flag and change nothing else |
| Input.MoveAfterReleaseIgnored | game.js:201-219 | after a release, move events change nothing until the next grab |
| Input.ApplyEvent | game.js:183-257 | the input handlers never change the objects, clock, multiplier or canvas and never stop a started round; the round is started only by a press inside the square |
| Loop.UpdateState | game.js:115-163 | if any moved object overlaps the square the result is the reset state; otherwise the clock, multiplier, flag, square and canvas are kept, and the list is the culled list plus the spawned object when the spawn test fires |
| Loop.UpdateLeavesNothingBelow | game.js:153-162 | after `update` no object's top edge is below the canvas |
| Loop.Update | game.js:115-163 | running the splice loop and then the spawn test gives exactly `UpdateState` |
| Loop.Frame | game.js:262-266 | a frame either ends in the reset state, or keeps the started flag and the square, does not lower the multiplier and does not raise the clock; with `Loop.ActiveFrameTicks` and `Loop.InactiveFrameFrozen` it is fixed as `update` first (the spawn sees the multiplier before the tick) and `updateTimer` second |
| Loop.FrameEndsRound | game.js:147-176 | a collision, or a clock at or past its last frame, makes the whole frame end in the reset state |
| Loop.InactiveFrameFrozen | game.js:159-171 | a frame before the round starts (without a collision) changes only the object list, which becomes exactly the moved-and-culled old list: nothing is spawned, and the clock, multiplier, flag and square are kept |
| Loop.ActiveFrameTicks | game.js:262-264 | a frame of an active round without a collision or a win is the whole record: the culled list plus the spawn decided at the pre-tick multiplier, the clock exactly 1/60 lower, the multiplier exactly 0.005 higher, everything else kept |
| Loop.ResetWellFormed | game.js:105-112 | on a canvas at least 40 by 50 the reset state satisfies the invariant |
| Loop.InitialWellFormed | game.js:27-48 | on a canvas at least 40 by 50 the page-load state satisfies the invariant |
| Loop.SurvivorsOk | game.js:136-157 | moving and culling keeps every object well formed |
| Loop.NewObjectOk | game.js:84-92 | a spawned object is well formed on a canvas at least 40 wide when the multiplier is at least 1 |
| Loop.UpdatePreservesWellFormed | game.js:115-163 | `update` keeps the invariant for any spawn draw in `[0, 1)` |
| Loop.TimerPreservesWellFormed | game.js:166-177 | `updateTimer` keeps the invariant, including the link between clock and multiplier |
| Loop.FramePreservesWellFormed | game.js:262-266 | a whole frame keeps the invariant |
| Loop.EventPreservesWellFormed | game.js:183-257 | every input event keeps the invariant |
| Loop.Run | game.js:262-267 | any sequence of frames and events from a well-formed state ends well-formed, on the same canvas, with the multiplier between 1 and 10 |

## Left out

- Drawing is not modelled: `clearRect`, the background fill, `drawImage`, the fallback rectangles and the timer text with `Math.ceil`. They write to the screen and do not affect the state.
- Image loading and the `playerImgLoaded` / `objectImgLoaded` flags are not modelled. They are asynchronous I/O and only choose how things are drawn.
- `setCanvasResolution` and the resize listener are not modelled. The canvas size is fixed per state. On a real resize the square is not re-clamped, so the on-canvas invariant holds only between resizes.
- `alert`, `requestAnimationFrame`, `addEventListener`, `getBoundingClientRect` and `preventDefault` are host plumbing and are not modelled. Events arrive already in canvas coordinates and are applied synchronously between frames.
- `Math.random()` is not modelled. Each draw is an explicit parameter, and the lemmas that need it assume the spawn-position draw lies in `[0, 1)`.
- IEEE-754 rounding is not modelled. Arithmetic is exact, so `timeLeft -= 1/60` and `speedMultiplier += 0.005` carry no accumulated error, and no exact frame count to reach zero is claimed.
- Loop.Run: states the invariant, the canvas and the multiplier bounds of the final state, not the final state itself.
- Objects.Survivors: its own contract only bounds the length; its content is stated by `Objects.SurvivorsAreKeptInOrder` and `Objects.SurvivorsMembers`.

=== FILE: geometry.dfy ===
/**
 Axis-aligned boxes on the canvas, the overlap test the game uses for
 collisions, and the clamp that keeps the dragged avatar on the canvas.
 Coordinates are exact reals; y grows downwards, as on an HTML canvas.
 */
module Geometry {

  /** A rectangle with its top-left corner at (x, y). */
  datatype Box = Box(x: real, y: real, width: real, height: real)

  /** The collision test: strict overlap on both axes, so boxes that
      merely share an edge do not collide. */
  predicate Overlaps(a: Box, b: Box)
    ensures a.width > 0.0 && a.height > 0.0 && b.width > 0.0 && b.height > 0.0 ==>
              (Overlaps(a, b) <==>
                 && Max(a.x, b.x) < Min(a.x + a.width, b.x + b.width)
                 && Max(a.y, b.y) < Min(a.y + a.height, b.y + b.height))
  {
    && a.x < b.x + b.width
    && a.x + a.width > b.x
    && a.y < b.y + b.height
    && a.y + a.height > b.y
  }

  /** The hit test of a grab: the point lies in the box, edges included. */
  predicate Contains(b: Box, px: real, py: real)
    ensures b.width >= 0.0 && b.height >= 0.0 ==>
              (Contains(b, px, py) <==>
                 Dist(px, b.x + b.width / 2.0) <= b.width / 2.0
                 && Dist(py, b.y + b.height / 2.0) <= b.height / 2.0)
    ensures StrictlyInside(b, px, py) ==> Contains(b, px, py)
  {
    && px >= b.x
    && px <= b.x + b.width
    && py >= b.y
    && py <= b.y + b.height
  }

  /** The point lies in the open interior of the box. */
  predicate StrictlyInside(b: Box, px: real, py: real)
  {
    b.x < px < b.x + b.width && b.y < py < b.y + b.height
  }

  lemma OverlapsSymmetric(a: Box, b: Box)
    ensures Overlaps(a, b) <==> Overlaps(b, a)
  {
  }

  /** Boxes that only touch along an edge do not collide. */
  lemma TouchingBoxesDoNotOverlap(a: Box, b: Box)
    requires || a.x + a.width == b.x || b.x + b.width == a.x
             || a.y + a.height == b.y || b.y + b.height == a.y
    ensures !Overlaps(a, b)
  {
  }

  /** For boxes of positive size, the strict test means exactly that the
      two boxes share an interior point. */
  lemma OverlapsIffCommonInteriorPoint(a: Box, b: Box)
    requires a.width > 0.0 && a.height > 0.0 && b.width > 0.0 && b.height > 0.0
    ensures Overlaps(a, b) <==> exists px, py :: StrictlyInside(a, px, py) && StrictlyInside(b, px, py)
  {
    if Overlaps(a, b) {
      var px := (Max(a.x, b.x) + Min(a.x + a.width, b.x + b.width)) / 2.0;
      var py := (Max(a.y, b.y) + Min(a.y + a.height, b.y + b.height)) / 2.0;
      assert StrictlyInside(a, px, py) && StrictlyInside(b, px, py);
    }
  }

  function Max(u: real, v: real): (r: real) { if u >= v then u else v }

  function Min(u: real, v: real): (r: real) { if u <= v then u else v }

  /** Distance between two points of the real line. */
  function Dist(u: real, v: real): (r: real) { if u >= v then u - v else v - u }

  /** `Math.max(0, Math.min(hi, v))`: the upper bound is applied first, so
      when `hi` is negative the lower bound 0 wins. */
  function Clamp(v: real, hi: real): (r: real)
    ensures r >= 0.0
    ensures hi >= 0.0 ==> r <= hi
    ensures 0.0 <= v <= hi ==> r == v
    ensures hi < 0.0 ==> r == 0.0
  {
    Max(0.0, Min(hi, v))
  }

  /** On a non-empty range the clamp is the point of [0, hi] nearest to v. */
  lemma ClampIsNearest(v: real, hi: real)
    requires hi >= 0.0
    ensures forall w :: 0.0 <= w <= hi ==> Dist(Clamp(v, hi), v) <= Dist(w, v)
  {
  }
}

=== FILE: input.dfy ===
/**
 The pointer and touch handlers. Events arrive already translated into
 canvas coordinates and are applied one at a time between frames.
 */
module Input {
  import opened Geometry
  import opened State

  /** `mousedown` / `touchstart`: a press inside the square (edges included)
      starts a drag and starts the round; a press elsewhere does nothing. */
  function Grab(s: Game, px: real, py: real): (r: Game)
    ensures Contains(s.square.Box(), px, py) ==>
              r.square.isDragging && r.gameStarted
              && r.square.x == s.square.x && r.square.y == s.square.y
              && r.objects == s.objects && r.timeLeft == s.timeLeft
              && r.speedMultiplier == s.speedMultiplier && r.canvas == s.canvas
    ensures !Contains(s.square.Box(), px, py) ==> r == s
  {
    if Contains(s.square.Box(), px, py) then
      s.(square := s.square.(isDragging := true), gameStarted := true)
    else s
  }

  /** The corner coordinate that centres the square on pointer coordinate `p`. */
  function Centred(p: real): (r: real) { p - AvatarSize / 2.0 }

  /** `mousemove` / `touchmove`: while dragging, centre the square on the
      pointer, then clamp each coordinate into the canvas. */
  function Move(s: Game, px: real, py: real): (r: Game)
    ensures !s.square.isDragging ==> r == s
    ensures s.square.isDragging ==> r == s.(square := r.square) && r.square.isDragging
    ensures s.square.isDragging && s.canvas.width >= 40 ==> 0.0 <= r.square.x <= s.canvas.W() - AvatarSize
    ensures s.square.isDragging && s.canvas.height >= 40 ==> 0.0 <= r.square.y <= s.canvas.H() - AvatarSize
    ensures s.square.isDragging && 0.0 <= Centred(px) <= s.canvas.W() - AvatarSize ==>
              r.square.x == Centred(px)
    ensures s.square.isDragging && 0.0 <= Centred(py) <= s.canvas.H() - AvatarSize ==>
              r.square.y == Centred(py)
  {
    if s.square.isDragging then
      var x := Clamp(Centred(px), s.canvas.W() - AvatarSize);
      var y := Clamp(Centred(py), s.canvas.H() - AvatarSize);
      s.(square := s.square.(x := x, y := y))
    else s
  }

  /** On a canvas narrower than the square the lower bound wins: the square
      is pinned at x = 0, past the canvas' right edge. */
  lemma MoveOnNarrowCanvas(s: Game, px: real, py: real)
    requires s.square.isDragging && s.canvas.width < 40
    ensures Move(s, px, py).square.x == 0.0 > s.canvas.W() - AvatarSize
  {
  }

  /** Likewise on a canvas lower than the square: it is pinned at y = 0,
      past the canvas' bottom edge. */
  lemma MoveOnShortCanvas(s: Game, px: real, py: real)
    requires s.square.isDragging && s.canvas.height < 40
    ensures Move(s, px, py).square.y == 0.0 > s.canvas.H() - AvatarSize
  {
  }

  /** Of all on-canvas positions, a move picks the one nearest to centring
      the square on the pointer. */
  lemma MoveIsNearestPosition(s: Game, px: real, py: real)
    requires s.square.isDragging
    ensures var r := Move(s, px, py);
            && (s.canvas.width >= 40 ==>
                  forall x :: 0.0 <= x <= s.canvas.W() - AvatarSize ==>
                    Dist(r.square.x, Centred(px)) <= Dist(x, Centred(px)))
            && (s.canvas.height >= 40 ==>
                  forall y :: 0.0 <= y <= s.canvas.H() - AvatarSize ==>
                    Dist(r.square.y, Centred(py)) <= Dist(y, Centred(py)))
  {
    if s.canvas.width >= 40 {
      ClampIsNearest(Centred(px), s.canvas.W() - AvatarSize);
    }
    if s.canvas.height >= 40 {
      ClampIsNearest(Centred(py), s.canvas.H() - AvatarSize);
    }
  }

  /** `mouseup`, `mouseleave` and `touchend`: end the drag; nothing else changes. */
  function Release(s: Game): (r: Game)
    ensures !r.square.isDragging
    ensures r.square.x == s.square.x && r.square.y == s.square.y
    ensures r.objects == s.objects && r.timeLeft == s.timeLeft && r.speedMultiplier == s.speedMultiplier
    ensures r.gameStarted == s.gameStarted && r.canvas == s.canvas
  {
    s.(square := s.square.(isDragging := false))
  }

  /** After a release, moves are ignored until the next successful grab. */
  lemma MoveAfterReleaseIgnored(s: Game, px: real, py: real)
    ensures Move(Release(s), px, py) == Release(s)
  {
  }

  /** The handlers the canvas listens to, with positions relative to the canvas. */
  datatype Event =
    | MouseDown(x: real, y: real)
    | MouseMove(x: real, y: real)
    | MouseUp
    | MouseLeave
    | TouchStart(x: real, y: real)
    | TouchMove(x: real, y: real)
    | TouchEnd

  /** Input handlers own the square and may start the round; they never touch
      the objects, the clock, the multiplier or the canvas, and never stop
      a started round. */
  function ApplyEvent(s: Game, e: Event): (r: Game)
    ensures r.objects == s.objects && r.timeLeft == s.timeLeft
    ensures r.speedMultiplier == s.speedMultiplier && r.canvas == s.canvas
    ensures s.gameStarted ==> r.gameStarted
    ensures r.gameStarted != s.gameStarted ==>
              (e.MouseDown? || e.TouchStart?) && Contains(s.square.Box(), e.x, e.y)
  {
    match e
    case MouseDown(x, y) => Grab(s, x, y)
    case TouchStart(x, y) => Grab(s, x, y)
    case MouseMove(x, y) => Move(s, x, y)
    case TouchMove(x, y) => Move(s, x, y)
    case MouseUp => Release(s)
    case MouseLeave => Release(s)
    case TouchEnd => Release(s)
  }
}

=== FILE: loop.dfy ===
/**
 One frame of `gameLoop` (`update`, then `updateTimer`), runs of frames
 interleaved with input events, and the invariant every reachable state keeps.
 The two `Math.random()` draws of a frame are the parameters `roll` (the
 spawn test) and `xFraction` (the spawn position).
 */
module Loop {
  import opened State
  import opened Objects
  import opened Timer
  import opened Input

  /** Some object, once moved, overlaps the square. */
  predicate AnyHit(s: Game)
  {
    exists j :: 0 <= j < |s.objects| && Hits(s.square.Box(), s.objects[j])
  }

  /** `update` without the drawing: a collision resets the game and skips
      the spawn; otherwise the objects are moved and culled and the spawn
      test runs. */
  function UpdateState(s: Game, roll: real, xFraction: real): (r: Game)
    ensures AnyHit(s) ==> r == Reset(s)
    ensures !AnyHit(s) ==>
              && r.timeLeft == s.timeLeft && r.speedMultiplier == s.speedMultiplier
              && r.gameStarted == s.gameStarted && r.square == s.square && r.canvas == s.canvas
              && r.objects == Survivors(s.objects, s.canvas.H())
                              + (if SpawnFires(s, roll) then [NewObject(s.canvas, s.speedMultiplier, xFraction)] else [])
  {
    if LastHit(s.objects, s.square.Box()).HitAt? then Reset(s)
    else MaybeSpawn(s.(objects := Survivors(s.objects, s.canvas.H())), roll, xFraction)
  }

  /** After `update` no object has its top edge below the canvas. */
  lemma UpdateLeavesNothingBelow(s: Game, roll: real, xFraction: real)
    ensures forall o :: o in UpdateState(s, roll, xFraction).objects ==> o.y <= s.canvas.H()
  {
    SurvivorsAboveBottom(s.objects, s.canvas.H());
  }

  /** `update` as the source runs it, with the downward splice loop. */
  method Update(s: Game, roll: real, xFraction: real) returns (r: Game)
    ensures r == UpdateState(s, roll, xFraction)
  {
    var scan, objects := StepObjects(s.objects, s.square.Box(), s.canvas.H());
    if scan.HitAt? {
      r := Reset(s);
      return;
    }
    r := s.(objects := objects);
    if SpawnFires(s, roll) {
      r := r.(objects := r.objects + [NewObject(s.canvas, s.speedMultiplier, xFraction)]);
    }
  }

  /** One pass of `gameLoop`. A frame either ends the round with the reset,
      or keeps the started flag and the square and does not lower the
      multiplier. */
  function Frame(s: Game, roll: real, xFraction: real): (r: Game)
    ensures r.canvas == s.canvas
    ensures r == Reset(s)
            || (r.gameStarted == s.gameStarted && r.square == s.square
                && r.speedMultiplier >= s.speedMultiplier && r.timeLeft <= s.timeLeft)
  {
    var u := UpdateState(s, roll, xFraction);
    MultiplierNonDecreasing(u);
    ResetForgetsRound(s, u);
    UpdateTimer(u)
  }

  /** A collision, or a clock that runs out, resets the game within the frame. */
  lemma FrameEndsRound(s: Game, roll: real, xFraction: real)
    requires AnyHit(s) || s.timeLeft <= 0.0 || (s.gameStarted && s.timeLeft <= FrameTime)
    ensures Frame(s, roll, xFraction) == Reset(s)
  {
    var u := UpdateState(s, roll, xFraction);
    ResetForgetsRound(s, u);
    if !AnyHit(s) {
      assert UpdateTimer(u) == Reset(u);
    }
  }

  /** Before the round starts a frame changes neither the clock, the
      multiplier nor the square and spawns nothing, whatever the random
      draws: only the existing objects fall and are culled. */
  lemma InactiveFrameFrozen(s: Game, roll: real, xFraction: real)
    requires !s.gameStarted && s.timeLeft > 0.0 && !AnyHit(s)
    ensures Frame(s, roll, xFraction) == s.(objects := Survivors(s.objects, s.canvas.H()))
  {
  }

  /** A frame of an active round that neither collides nor runs out of
      time moves and culls the objects, runs the spawn test with the
      multiplier as it was before the tick, then takes exactly one frame
      off the clock and adds exactly one step to the multiplier; the square
      and the started flag are kept. */
  lemma ActiveFrameTicks(s: Game, roll: real, xFraction: real)
    requires s.gameStarted && s.timeLeft > FrameTime && !AnyHit(s)
    ensures Frame(s, roll, xFraction)
            == s.(objects := Survivors(s.objects, s.canvas.H())
                             + (if SpawnFires(s, roll) then [NewObject(s.canvas, s.speedMultiplier, xFraction)] else []),
                  timeLeft := s.timeLeft - FrameTime,
                  speedMultiplier := s.speedMultiplier + MultiplierStep)
  {
  }

  /** A falling object as the game creates and keeps it. */
  predicate ObjectOk(o: FallingObject, c: Canvas, speedMultiplier: real)
  {
    && o.width == ObjectSize && o.height == ObjectSize
    && 0.0 <= o.x < c.W() - ObjectSize
    && SpawnY <= o.y <= c.H()
    && BaseSpeed <= o.speed <= BaseSpeed * speedMultiplier
  }

  /** The invariant of every state seen between frames and events, on a
      canvas big enough for the reset position (40 wide, 50 high). */
  predicate WellFormed(s: Game)
  {
    && s.canvas.width >= 40 && s.canvas.height >= 50
    && 0.0 < s.timeLeft <= InitialTime
    && s.speedMultiplier == InitialMultiplier + (InitialTime - s.timeLeft) * (MultiplierStep / FrameTime)
    && (!s.gameStarted ==> s.objects == [] && s.timeLeft == InitialTime)
    && InPlayfield(s.square, s.canvas)
    && forall o :: o in s.objects ==> ObjectOk(o, s.canvas, s.speedMultiplier)
  }

  lemma ResetWellFormed(s: Game)
    requires s.canvas.width >= 40 && s.canvas.height >= 50
    ensures WellFormed(Reset(s))
  {
    PositionPlayerInPlayfield(s.square, s.canvas);
  }

  lemma InitialWellFormed(c: Canvas)
    requires c.width >= 40 && c.height >= 50
    ensures WellFormed(Initial(c))
  {
    ResetWellFormed(Initial(c));
  }

  /** Moving and culling keeps every object well formed. */
  lemma SurvivorsOk(os: seq<FallingObject>, c: Canvas, speedMultiplier: real)
    requires forall o :: o in os ==> ObjectOk(o, c, speedMultiplier)
    ensures forall o :: o in Survivors(os, c.H()) ==> ObjectOk(o, c, speedMultiplier)
  {
    SurvivorsMembers(os, c.H());
    forall o | o in Survivors(os, c.H())
      ensures ObjectOk(o, c, speedMultiplier)
    {
      var j :| 0 <= j < |os| && o == Fall(os[j]) && o.y <= c.H();
      assert os[j] in os;
    }
  }

  /** A spawned object is well formed on a canvas wider than it. */
  lemma NewObjectOk(c: Canvas, speedMultiplier: real, xFraction: real)
    requires c.width >= 40 && speedMultiplier >= 1.0 && 0.0 <= xFraction < 1.0
    ensures ObjectOk(NewObject(c, speedMultiplier, xFraction), c, speedMultiplier)
  {
  }

  lemma UpdatePreservesWellFormed(s: Game, roll: real, xFraction: real)
    requires WellFormed(s) && 0.0 <= xFraction < 1.0
    ensures WellFormed(UpdateState(s, roll, xFraction))
  {
    if AnyHit(s) {
      ResetWellFormed(s);
    } else {
      SurvivorsOk(s.objects, s.canvas, s.speedMultiplier);
      NewObjectOk(s.canvas, s.speedMultiplier, xFraction);
      var r := UpdateState(s, roll, xFraction);
      forall o | o in r.objects
        ensures ObjectOk(o, s.canvas, s.speedMultiplier)
      {
        if o !in Survivors(s.objects, s.canvas.H()) {
          assert o == NewObject(s.canvas, s.speedMultiplier, xFraction);
        }
      }
      if !s.gameStarted {
        assert Survivors(s.objects, s.canvas.H()) == [];
      }
    }
  }

  lemma TimerPreservesWellFormed(s: Game)
    requires WellFormed(s)
    ensures WellFormed(UpdateTimer(s))
  {
    var r := UpdateTimer(s);
    if r == Reset(s) {
      ResetWellFormed(s);
    } else if s.gameStarted {
      assert r.speedMultiplier >= s.speedMultiplier;
      forall o | o in r.objects
        ensures ObjectOk(o, r.canvas, r.speedMultiplier)
      {
        assert ObjectOk(o, s.canvas, s.speedMultiplier);
      }
    }
  }

  lemma FramePreservesWellFormed(s: Game, roll: real, xFraction: real)
    requires WellFormed(s) && 0.0 <= xFraction < 1.0
    ensures WellFormed(Frame(s, roll, xFraction))
  {
    UpdatePreservesWellFormed(s, roll, xFraction);
    TimerPreservesWellFormed(UpdateState(s, roll, xFraction));
  }

  lemma EventPreservesWellFormed(s: Game, e: Event)
    requires WellFormed(s)
    ensures WellFormed(ApplyEvent(s, e))
  {
  }

  /** What happens between two renders: a frame with its two random draws,
      or one input event. */
  datatype Step = Tick(roll: real, xFraction: real) | Handle(event: Event)

  predicate DrawsInRange(steps: seq<Step>)
  {
    forall k :: 0 <= k < |steps| ==> steps[k].Tick? ==> 0.0 <= steps[k].xFraction < 1.0
  }

  /** The page's life: frames of `gameLoop` interleaved with input events.
      Every state it passes through, and so the last, keeps the invariant:
      the square on the canvas, the clock in (0, 30], the multiplier tied to
      the clock, no object below the canvas. */
  method Run(s: Game, steps: seq<Step>) returns (r: Game)
    requires WellFormed(s) && DrawsInRange(steps)
    ensures WellFormed(r) && r.canvas == s.canvas
    ensures 1.0 <= r.speedMultiplier <= 10.0
  {
    r := s;
    var k := 0;
    while k < |steps|
      invariant 0 <= k <= |steps|
      invariant WellFormed(r) && r.canvas == s.canvas
    {
      match steps[k] {
        case Tick(roll, xFraction) =>
          UpdatePreservesWellFormed(r, roll, xFraction);
          var u := Update(r, roll, xFraction);
          TimerPreservesWellFormed(u);
          r := UpdateTimer(u);
        case Handle(e) =>
          EventPreservesWellFormed(r, e);
          r := ApplyEvent(r, e);
      }
      k := k + 1;
    }
  }
}

=== FILE: objects.dfy ===
/**
 The falling objects: how one frame moves them, which of them hit the
 player, which are culled below the canvas, and how new ones are spawned.
 The per-frame loop of `update` is `StepObjects`; `LastHit` and
 `Survivors` are its functional specification.
 */
module Objects {
  import opened Geometry
  import opened State

  /** An object after one frame of fall. */
  function Fall(o: FallingObject): (r: FallingObject)
    ensures r.y == o.y + o.speed
    ensures r.x == o.x && r.width == o.width && r.height == o.height && r.speed == o.speed
  {
    o.(y := o.y + o.speed)
  }

  /** The object, once moved, overlaps the player's square. */
  predicate Hits(a: Box, o: FallingObject)
  {
    Overlaps(a, Fall(o).Box())
  }

  /** The moved object, or nothing when it has passed the bottom edge. */
  function Kept(o: FallingObject, h: real): (r: seq<FallingObject>)
    ensures r == [] <==> Fall(o).y > h
    ensures r != [] ==> r == [Fall(o)]
  {
    if Fall(o).y > h then [] else [Fall(o)]
  }

  /** The list after moving every object and dropping those below `h`. */
  function Survivors(os: seq<FallingObject>, h: real): (r: seq<FallingObject>)
    ensures |r| <= |os|
  {
    if os == [] then [] else Kept(os[0], h) + Survivors(os[1..], h)
  }

  /** Outcome of the collision scan. */
  datatype Scan = NoHit | HitAt(index: nat)

  /** The scan runs from the end of the list, so the hit it reports is the
      one at the highest index. */
  function LastHit(os: seq<FallingObject>, a: Box): (r: Scan)
    ensures r.NoHit? <==> forall j :: 0 <= j < |os| ==> !Hits(a, os[j])
    ensures r.HitAt? ==> r.index < |os| && Hits(a, os[r.index])
    ensures r.HitAt? ==> forall j :: r.index < j < |os| ==> !Hits(a, os[j])
  {
    if os == [] then NoHit
    else if Hits(a, os[|os| - 1]) then HitAt(|os| - 1)
    else LastHit(os[..|os| - 1], a)
  }

  lemma SurvivorsStep(os: seq<FallingObject>, i: nat, h: real)
    requires i < |os|
    ensures Survivors(os[i..], h) == Kept(os[i], h) + Survivors(os[i + 1..], h)
  {
    assert os[i..][1..] == os[i + 1..];
  }

  /** The scan result is determined by where the highest hit lies. */
  lemma LastHitAt(os: seq<FallingObject>, a: Box, i: nat)
    requires i < |os| && Hits(a, os[i])
    requires forall j :: i < j < |os| ==> !Hits(a, os[j])
    ensures LastHit(os, a) == HitAt(i)
  {
  }

  /** Moving `os[k-1]` in place in a list whose suffix from `k` is processed. */
  lemma MoveInPlace(os: seq<FallingObject>, k: nat, h: real, r: seq<FallingObject>)
    requires 0 < k <= |os| && r == os[..k] + Survivors(os[k..], h)
    ensures r[k - 1] == os[k - 1]
    ensures r[k - 1 := Fall(os[k - 1])] == os[..k - 1] + [Fall(os[k - 1])] + Survivors(os[k..], h)
  {
    assert os[..k] == os[..k - 1] + [os[k - 1]];
  }

  /** Splicing out (or keeping) the moved `os[i]` extends the processed suffix by one. */
  lemma CullInPlace(os: seq<FallingObject>, i: nat, h: real, m: seq<FallingObject>)
    requires i < |os| && m == os[..i] + [Fall(os[i])] + Survivors(os[i + 1..], h)
    ensures Fall(os[i]).y > h ==> m[..i] + m[i + 1..] == os[..i] + Survivors(os[i..], h)
    ensures Fall(os[i]).y <= h ==> m == os[..i] + Survivors(os[i..], h)
  {
    SurvivorsStep(os, i, h);
    if Fall(os[i]).y > h {
      assert m[..i] == os[..i];
      assert m[i + 1..] == Survivors(os[i + 1..], h);
    }
  }

  /** The downward loop of `update`: move `objects[i]`, stop at the first
      collision, otherwise splice the object out when it is below the canvas.
      On a hit the list is returned as it stands at that moment. */
  method StepObjects(os: seq<FallingObject>, a: Box, h: real) returns (scan: Scan, r: seq<FallingObject>)
    ensures scan == LastHit(os, a)
    ensures scan.NoHit? ==> r == Survivors(os, h)
    ensures scan.HitAt? ==> r == os[..scan.index] + [Fall(os[scan.index])] + Survivors(os[scan.index + 1..], h)
  {
    r := os;
    var k := |os|;
    assert os[k..] == [];
    while k > 0
      invariant 0 <= k <= |os|
      invariant r == os[..k] + Survivors(os[k..], h)
      invariant forall j :: k <= j < |os| ==> !Hits(a, os[j])
      decreases k
    {
      var i := k - 1;
      MoveInPlace(os, k, h, r);
      r := r[i := Fall(r[i])];
      if Overlaps(a, r[i].Box()) {
        LastHitAt(os, a, i);
        scan := HitAt(i);
        return;
      }
      CullInPlace(os, i, h, r);
      if r[i].y > h {
        r := r[..i] + r[i + 1..];
      }
      k := i;
    }
    assert os[0..] == os;
    scan := NoHit;
  }

  /** The indices, from `lo` upwards, of the objects that survive one frame. */
  function KeptIndices(os: seq<FallingObject>, h: real, lo: nat): (r: seq<nat>)
    ensures forall m :: 0 <= m < |r| ==> lo <= r[m] < |os|
    ensures forall m, n :: 0 <= m < n < |r| ==> r[m] < r[n]
    ensures forall j :: lo <= j < |os| ==> (j in r <==> Fall(os[j]).y <= h)
    decreases |os| - lo
  {
    if lo >= |os| then []
    else if Fall(os[lo]).y <= h then [lo] + KeptIndices(os, h, lo + 1)
    else KeptIndices(os, h, lo + 1)
  }

  /** The cull is a filter and a map: the survivors are, in their original
      order, the moved images of exactly the objects that end at or above
      the bottom edge; no object is skipped and none is repeated. */
  lemma {:induction false} SurvivorsAreKeptInOrder(os: seq<FallingObject>, h: real, lo: nat)
    requires lo <= |os|
    ensures var idx := KeptIndices(os, h, lo);
            |Survivors(os[lo..], h)| == |idx|
            && forall m :: 0 <= m < |idx| ==> Survivors(os[lo..], h)[m] == Fall(os[idx[m]])
    decreases |os| - lo
  {
    if lo < |os| {
      SurvivorsStep(os, lo, h);
      SurvivorsAreKeptInOrder(os, h, lo + 1);
      var rest := Survivors(os[lo + 1..], h);
      var restIdx := KeptIndices(os, h, lo + 1);
      if Fall(os[lo]).y <= h {
        assert Survivors(os[lo..], h) == [Fall(os[lo])] + rest;
        assert KeptIndices(os, h, lo) == [lo] + restIdx;
        forall m | 1 <= m < |KeptIndices(os, h, lo)|
          ensures Survivors(os[lo..], h)[m] == Fall(os[KeptIndices(os, h, lo)[m]])
        {
          assert Survivors(os[lo..], h)[m] == rest[m - 1];
          assert KeptIndices(os, h, lo)[m] == restIdx[m - 1];
        }
      } else {
        assert Survivors(os[lo..], h) == rest;
        assert KeptIndices(os, h, lo) == restIdx;
      }
    }
  }

  /** Membership form of the cull, in both directions. */
  lemma {:induction false} SurvivorsMembers(os: seq<FallingObject>, h: real)
    ensures forall o :: o in Survivors(os, h) <==> exists j :: 0 <= j < |os| && o == Fall(os[j]) && o.y <= h
  {
    if os != [] {
      SurvivorsMembers(os[1..], h);
      forall o | o in Survivors(os, h)
        ensures exists j :: 0 <= j < |os| && o == Fall(os[j]) && o.y <= h
      {
        if o in Kept(os[0], h) {
          assert o == Fall(os[0]);
        } else {
          var j :| 0 <= j < |os[1..]| && o == Fall(os[1..][j]) && o.y <= h;
          assert o == Fall(os[j + 1]);
        }
      }
      forall o | exists j :: 0 <= j < |os| && o == Fall(os[j]) && o.y <= h
        ensures o in Survivors(os, h)
      {
        var j :| 0 <= j < |os| && o == Fall(os[j]) && o.y <= h;
        if j > 0 {
          assert o == Fall(os[1..][j - 1]);
        }
      }
    }
  }

  /** Every survivor has its top edge at or above the bottom of the canvas. */
  lemma SurvivorsAboveBottom(os: seq<FallingObject>, h: real)
    ensures forall o :: o in Survivors(os, h) ==> o.y <= h
  {
    SurvivorsMembers(os, h);
  }

  /** `spawnObject`: a 20 by 20 object just above the canvas, at the
      horizontal offset `xFraction * (width - 20)` for the random draw
      `xFraction`, falling at twice the current multiplier. */
  function NewObject(c: Canvas, speedMultiplier: real, xFraction: real): (r: FallingObject)
    ensures r.y == SpawnY && r.width == ObjectSize && r.height == ObjectSize
    ensures r.speed == BaseSpeed * speedMultiplier
    ensures 0.0 <= xFraction < 1.0 && c.width > 20 ==> 0.0 <= r.x < c.W() - ObjectSize
    ensures r.x == xFraction * (c.W() - ObjectSize)
  {
    var span := c.W() - ObjectSize;
    assert 0.0 <= xFraction < 1.0 && span > 0.0 ==> xFraction * span < span by {
      if 0.0 <= xFraction < 1.0 && span > 0.0 {
        assert span - xFraction * span == (1.0 - xFraction) * span;
      }
    }
    FallingObject(xFraction * span, SpawnY, ObjectSize, ObjectSize, BaseSpeed * speedMultiplier)
  }

  /** The spawn test of `update` passes: the round is active and the
      random draw `roll` falls below `0.02 * speedMultiplier`. */
  predicate SpawnFires(s: Game, roll: real)
  {
    s.gameStarted && roll < SpawnChance * s.speedMultiplier
  }

  /** The spawn step at the end of `update`: only while the round is
      active, and only when the random draw `roll` falls below
      `0.02 * speedMultiplier`; the new object goes to the end of the list. */
  function MaybeSpawn(s: Game, roll: real, xFraction: real): (r: Game)
    ensures r == s.(objects := r.objects)
    ensures |r.objects| >= |s.objects| && r.objects[..|s.objects|] == s.objects
    ensures SpawnFires(s, roll) ==> r.objects == s.objects + [NewObject(s.canvas, s.speedMultiplier, xFraction)]
    ensures !SpawnFires(s, roll) ==> r == s
  {
    if SpawnFires(s, roll) then
      s.(objects := s.objects + [NewObject(s.canvas, s.speedMultiplier, xFraction)])
    else s
  }

  /** Before the round starts nothing is spawned, whatever the multiplier
      and the random draws. */
  lemma NoSpawnWhenInactive(s: Game, roll: real, xFraction: real)
    requires !s.gameStarted
    ensures MaybeSpawn(s, roll, xFraction) == s
  {
  }
}

=== FILE: state.dfy ===
/**
 The game's state record: the player's square, the falling objects, the
 round's timer and speed multiplier, the started flag and the canvas size,
 together with the constants of the game and the reset that restores a
 fresh round.
 */
module State {
  import opened Geometry

  /** Side of the player's square. */
  const AvatarSize: real := 40.0
  /** Gap left between the square and the bottom of the canvas on reset. */
  const BottomMargin: real := 10.0
  /** Side of a falling object. */
  const ObjectSize: real := 20.0
  /** Vertical position of a newly spawned object, just above the canvas. */
  const SpawnY: real := -20.0
  /** Fall speed of an object spawned at multiplier 1. */
  const BaseSpeed: real := 2.0
  /** Spawn chance per frame at multiplier 1. */
  const SpawnChance: real := 0.02
  /** Length of a round. */
  const InitialTime: real := 30.0
  const InitialMultiplier: real := 1.0
  /** Time taken off the clock by one frame (one frame at 60 fps). */
  const FrameTime: real := 1.0 / 60.0
  /** Growth of the speed multiplier per active frame. */
  const MultiplierStep: real := 0.005

  /** The canvas' pixel size (integers, as `canvas.width` and `canvas.height` are). */
  datatype Canvas = Canvas(width: nat, height: nat)
  {
    function W(): (r: real) { width as real }
    function H(): (r: real) { height as real }
  }

  /** The player's square: its top-left corner and whether it is being dragged. */
  datatype Avatar = Avatar(x: real, y: real, isDragging: bool)
  {
    function Box(): (r: Box) { Geometry.Box(x, y, AvatarSize, AvatarSize) }
  }

  datatype FallingObject = FallingObject(x: real, y: real, width: real, height: real, speed: real)
  {
    function Box(): (r: Box) { Geometry.Box(x, y, width, height) }
  }

  datatype Game = Game(
    objects: seq<FallingObject>,
    timeLeft: real,
    speedMultiplier: real,
    gameStarted: bool,
    square: Avatar,
    canvas: Canvas)

  /** The square lies wholly on the canvas. */
  predicate InPlayfield(a: Avatar, c: Canvas)
  {
    0.0 <= a.x <= c.W() - AvatarSize && 0.0 <= a.y <= c.H() - AvatarSize
  }

  /** `positionPlayer`: centre the square horizontally and put it 10 pixels
      above the bottom edge; the dragging flag is kept. */
  function PositionPlayer(a: Avatar, c: Canvas): (r: Avatar)
    ensures r.x + AvatarSize / 2.0 == c.W() / 2.0
    ensures r.y + AvatarSize + BottomMargin == c.H()
    ensures r.isDragging == a.isDragging
  {
    a.(x := c.W() / 2.0 - AvatarSize / 2.0, y := c.H() - AvatarSize - BottomMargin)
  }

  /** The reset position is on the canvas exactly when the canvas is at
      least 40 wide and 50 high. */
  lemma PositionPlayerInPlayfield(a: Avatar, c: Canvas)
    ensures InPlayfield(PositionPlayer(a, c), c) <==> c.width >= 40 && c.height >= 50
  {
  }

  /** `resetGame`: empty the object list, restore the clock and the
      multiplier, clear the started flag and re-centre the square. */
  function Reset(s: Game): (r: Game)
    ensures r.objects == []
    ensures r.timeLeft == InitialTime && r.speedMultiplier == InitialMultiplier
    ensures !r.gameStarted
    ensures r.square.isDragging == s.square.isDragging
    ensures r.square.x == s.canvas.W() / 2.0 - 20.0 && r.square.y == s.canvas.H() - 50.0
    ensures r.canvas == s.canvas
  {
    Game([], InitialTime, InitialMultiplier, false, PositionPlayer(s.square, s.canvas), s.canvas)
  }

  /** The reset state forgets the round: it depends only on the canvas and
      on the dragging flag. */
  lemma ResetForgetsRound(s: Game, t: Game)
    requires s.canvas == t.canvas && s.square.isDragging == t.square.isDragging
    ensures Reset(s) == Reset(t)
  {
  }

  lemma ResetIdempotent(s: Game)
    ensures Reset(Reset(s)) == Reset(s)
  {
  }

  /** The state the page starts in: the square at (0, 0), not dragging,
      then placed by `positionPlayer`. */
  function Initial(c: Canvas): (r: Game)
    ensures r == Reset(r)
    ensures !r.square.isDragging
    ensures r.canvas == c
  {
    Game([], InitialTime, InitialMultiplier, false, PositionPlayer(Avatar(0.0, 0.0, false), c), c)
  }
}

=== FILE: timer.dfy ===
/**
 The once-per-frame clock of `updateTimer`: while the round is active it
 takes one frame off the remaining time and raises the speed multiplier;
 a clock at or below zero ends the round (the win) with a reset.
 */
module Timer {
  import opened State

  function UpdateTimer(s: Game): (r: Game)
    ensures s.gameStarted && s.timeLeft > FrameTime ==>
              r == s.(timeLeft := s.timeLeft - FrameTime, speedMultiplier := s.speedMultiplier + MultiplierStep)
    ensures s.gameStarted && 0.0 < s.timeLeft <= FrameTime ==> r == Reset(s)
    ensures s.timeLeft <= 0.0 ==> r == Reset(s)
    ensures !s.gameStarted && s.timeLeft > 0.0 ==> r == s
    ensures r.timeLeft > 0.0
  {
    var ticked :=
      if s.gameStarted && s.timeLeft > 0.0 then
        s.(timeLeft := s.timeLeft - FrameTime, speedMultiplier := s.speedMultiplier + MultiplierStep)
      else s;
    if ticked.timeLeft <= 0.0 then Reset(ticked) else ticked
  }

  /** The multiplier never decreases, except through the reset. */
  lemma MultiplierNonDecreasing(s: Game)
    ensures var r := UpdateTimer(s);
            r == Reset(s) || (r.speedMultiplier >= s.speedMultiplier && r.timeLeft <= s.timeLeft)
  {
  }

  /** The clock only touches the clock and the multiplier, unless it resets. */
  lemma TimerKeepsRest(s: Game)
    ensures var r := UpdateTimer(s);
            r == Reset(s)
            || (r.objects == s.objects && r.gameStarted == s.gameStarted
                && r.square == s.square && r.canvas == s.canvas)
  {
  }
}
